=== FILE: README.md ===
# Chirpy credential and chirp logic in Dafny

This project models the core of Chirpy, a small Go web service where users
register, log in and post short messages ("chirps"). It covers three parts:

- **Credential strings** (`internal/auth/auth.go`). This is bearer-token
  extraction from the `Authorization` header, refresh-token generation as
  hex text, and JWT claim construction and validation. It also covers how a
  bcrypt comparison maps to a `(bool, error)` pair.
- **The chirp pipeline** (`chirps.go`). This is the create handler's ordered
  chain of checks, the 140-byte limit, the profanity filter and the
  rejection of refresh-token-shaped bearer values. It also covers listing in
  creation order and deleting only by the owner.
- **Accounts** (`users.go`). This is the clamp on a requested token
  lifetime, the login chain (lookup, then password check, then token
  issue) and registration. The response shape carries no password hash.

Everything is a pure function over immutable values. The database is a
value `Api.Db`: a sequence of user rows and a map from chirp id to chirp.
Each handler returns a reply and, when it writes, the new database. A Go
call that does not return normally is kept apart from one that returns an
error, using `Wrappers.Outcome`:

- `Crash(Panic)`: an index out of range, or `uuid.MustParse` on bad input.
- `Crash(Exit)`: `log.Fatal`, which ends the process.

A handler reply is `Api.Reply`:

- `Respond(status, body)`: a JSON answer.
- `Fail(status, message)`: what `respondWithError` sends.
- `Abort(crash)`: nothing is sent.

These things enter as values, not as code:

- Cryptography: `Auth.Bcrypt` for bcrypt, `Auth.JwtCodec` for golang-jwt
  with HMAC-SHA256, and `Auth.RandomRead` for what `crypto/rand` wrote.
- The clock: `now`, in Unix nanoseconds.
- Ids the database generates: `newId`.
- The JSON request: already decoded, with `None` meaning decoding failed.

Properties that need the libraries to behave are stated under two
assumptions:

- `Auth.Faithful`: a token the signer produced parses back, under the same
  key, to the claims it was signed with.
- `Auth.Consistent`: a hash bcrypt generated for a password compares equal
  to that password.

Chirp bodies are modelled as their UTF-8 bytes, so the length limit counts
bytes, as Go's `len` does. The filter matches ASCII letters without regard
to case, byte by byte. For ASCII text and these all-ASCII words, that gives
the same matches as Go's rune-based regular expression.

## Model

| member | source | states |
|---|---|---|
| Text.IndexFromFirst | internal/auth/auth.go:87 | The search from a start position returns an occurrence with none before it, and `None` only when there is no occurrence from that position on. |
| Text.IndexOfFirst | internal/auth/auth.go:87 | The first occurrence of the separator, and `None` exactly when it does not occur. |
| Text.SplitCount | internal/auth/auth.go:87-88 | `strings.Split` on a non-empty separator yields one piece exactly when the separator is absent. |
| Text.SplitJoin | internal/auth/auth.go:87 | Joining the pieces of `strings.Split` with the separator gives back the input. |
| Text.SplitPiecesFree | internal/auth/auth.go:87 | No piece of `strings.Split` holds the separator. |
| Text.SplitFirst | internal/auth/auth.go:87-88 | The first piece runs up to the first occurrence of the separator, or to the end of the string. |
| Text.SecondPiece | internal/auth/auth.go:87-89 | The second piece, the one the bearer parser returns, is the text between the first and second occurrences of the separator (or the end). |
| Hex.Encode | internal/auth/auth.go:105 | `hex.EncodeToString` gives two characters per byte, all in `0-9a-f`. |
| Hex.DecodeEncode | internal/auth/auth.go:105 | Hex-decoding the encoding gives back the bytes. |
| Uuids.Format | internal/auth/auth.go:52-54 | `UUID.String` gives 36 characters: dashes at 8, 13, 18 and 23, and lower-case hex everywhere else. |
| Uuids.Parse | chirps.go:47 | `uuid.Parse` accepts only lengths 32, 36, 38 and 45, and, of valid UTF-8 text, only ASCII text, since Go measures the length in bytes. Anything else is the error that makes `MustParse` panic. |
| Uuids.ParseRejectsNonAsciiBrace | chirps.go:47 | A 38-character id opened by a non-ASCII character is rejected, as Go rejects its 39 UTF-8 bytes. |
| Uuids.ParseFormat | internal/auth/auth.go:77 | Parsing a printed id gives the id back, so `MustParse` on a subject that `MakeJWT` wrote never panics. |
| Uuids.FormatInjective | internal/auth/auth.go:52 | Distinct user ids give distinct subjects. |
| Auth.HashPassword | internal/auth/auth.go:18-26 | Gives the bcrypt hash when bcrypt succeeds. Otherwise the process exits and never returns an error. |
| Auth.CheckPasswordHash | internal/auth/auth.go:28-35 | `true` exactly when the comparison reports no error. Otherwise `false` together with that error. |
| Auth.NumericDate | internal/auth/auth.go:48-50 | A time is truncated down to the whole second that contains it. |
| Auth.MakeJWT | internal/auth/auth.go:43-65 | Never returns an error. It gives a token exactly when signing the fixed claim record under `AllYourBase` succeeds, and exits the process otherwise. |
| Auth.IssuedTokenClaims | internal/auth/auth.go:44-56 | The issued token carries the user id as subject and as its only audience, issuer `chirpy` and id `1`. Issued-at and not-before are the issue second, and expiry is the second of issue time plus lifetime. |
| Auth.ValidateJWT | internal/auth/auth.go:67-82 | Gives an id only for a token that parses under the constant key, is inside its exp/nbf window and has a parseable subject. It is an error exactly when parsing fails or the time window is violated, and a panic exactly when the subject of a valid, current token does not parse. |
| Auth.ValidateIssuedToken | internal/auth/auth.go:44-77 | For any two secrets, validating a token issued at `now` gives back the user id. This holds from `now` until one second before the nominal expiry. |
| Auth.IssuedTokenExpires | internal/auth/auth.go:48-74 | Once issue time plus lifetime has passed, the issued token is rejected. |
| Auth.GetBearerToken | internal/auth/auth.go:84-93 | An error exactly when the header is empty. A panic exactly when a non-empty header lacks `"Bearer "`. A returned token never contains `"Bearer "`. |
| Auth.BearerTokenBetweenOccurrences | internal/auth/auth.go:86-89 | The token is the text between the first `"Bearer "` and the next one (or the end), and any prefix is discarded. |
| Auth.BearerOfPrefixed | internal/auth/auth.go:86-89 | `"Bearer " + t` yields exactly `t` when `t` has no `"Bearer "`. So `"Bearer "` alone yields `""` with no error. |
| Auth.MakeRefreshToken | internal/auth/auth.go:95-106 | Succeeds exactly when the read reports no error and a non-zero count. The output is then 64 lower-case hex characters that decode to the 32 random bytes. Otherwise it is an error. |
| Api.UserById | chirps.go:124-128 | Gives a stored user with that id, or `None` when no stored user has it. |
| Api.UserByEmail | users.go:38-42 | Gives a stored user with that email, or `None` when no stored user has it. |
| Profanity.Censor | chirps.go:136-137 | Replacing each match with `****` never lengthens the body. |
| Profanity.CensorKeepsPrefix | chirps.go:136-137 | A leading run of bytes at none of which a match starts is kept unchanged, and filtering continues on the rest. |
| Profanity.CensorWordAtStart | chirps.go:136-137 | A word at the start, in any ASCII case, becomes `****`, and filtering resumes right after it. |
| Profanity.CensorMatch | chirps.go:136-137 | For text with a first match after a match-free prefix, the result is the prefix, then `****`, then the filtered remainder. This holds also when the word sits inside a longer word. |
| Profanity.MatchThroughCensor | chirps.go:136-137 | A star-free pattern seen at the start of the filtered text was already at the start of the original. |
| Profanity.CensorIsClean | chirps.go:136-137 | The filtered text has no case-insensitive `kerfuffle`, `sharbert` or `fornax` anywhere, including inside longer words. |
| Profanity.CensorKeepsClean | chirps.go:136-137 | Text with no such occurrence passes through unchanged. |
| Profanity.CensorIdempotent | chirps.go:136-137 | Filtering twice equals filtering once. |
| RefreshShape.ScanFrom | chirps.go:112 | The one-pass scan answers true exactly when some 64 consecutive characters are all lower-case hex. |
| RefreshShape.LooksLikeRefreshToken | chirps.go:112-116 | The unanchored `[0-9a-f]{64}` matches exactly when the token holds such a run. |
| RefreshShape.HexStringMatches | internal/auth/auth.go:105 | Every 64-character lower-case hex string, as `MakeRefreshToken` produces, has that shape. |
| ChirpOrder.Insert | chirps.go:66-70 | Inserting into a sorted list keeps it sorted and adds exactly one element. |
| ChirpOrder.SortByCreatedAt | chirps.go:66-70 | The result is a permutation of the rows, sorted non-decreasing (ascending) or non-increasing (descending) by creation time. |
| Chirps.CreateChirp | chirps.go:93-157 | A failure leaves the store unchanged. Success (201) needs a decoded body of at most 140 raw bytes, a non-refresh-shaped bearer token that validates, and an existing author. Success stores exactly the censored body, which is at most 140 bytes and clean, under the fresh id, and replies with that stored row: its id is the fresh id and both timestamps are the creation time. |
| Chirps.CreateCheckOrder | chirps.go:98-134 | Checks run in order and the first failure decides: decode 500, bearer 401 (or panic), refresh shape 401, JWT 401 (or panic on a subject that is not a UUID), user lookup 500, length 400. |
| Chirps.RefreshTokenRejected | chirps.go:106-116 | Every `MakeRefreshToken` output presented as `Bearer <token>` gets 401 before JWT validation, whatever the signer does, and nothing is stored. |
| Chirps.ByAuthor | chirps.go:46-53 | Keeps exactly one author's rows, each with its multiplicity. |
| Chirps.ListChirps | chirps.go:29-73 | The rows the database query returns are a parameter rather than read from `Api.Db`. Only a malformed `author_id` panics. Otherwise the reply is 200 with a permutation of the selected rows. They are sorted ascending when `sort` is empty or `asc`, and descending for any other value. |
| Chirps.GetChirp | chirps.go:75-91 | 200 with the stored chirp when it exists, 404 when it does not, and a panic on a malformed id. |
| Chirps.DeleteChirp | chirps.go:159-195 | The store changes only on 204. Failures are 401 or 403, or a panic. |
| Chirps.DeleteOnlyByOwner | chirps.go:159-195 | 204 exactly when the caller's token subject owns an existing chirp, which then alone is removed. A missing chirp or another owner gives 403, and the store is unchanged. |
| Users.ViewIgnoresHash | users.go:60-66 | The response is the same whatever hash, or none, the user row holds, so nothing of it reaches the client. |
| Users.TokenLifetimeAsWritten | users.go:50-53 | As written: a request of 0 or above 3600 gets one hour, and anything else is a wrapping 64-bit product. |
| Users.LifetimeAsWrittenOverflows | users.go:52 | The request -9223372037 passes the clamp and wraps to about 292 years. |
| Users.TokenLifetime | users.go:50-53 | A request of 1..3600 gets that many seconds, 0 or above 3600 gets one hour, and a negative request passes through. The lifetime never exceeds one hour. |
| Users.LifetimeAgreesWithoutOverflow | users.go:50-53 | Wherever the 64-bit product does not overflow, the corrected selection equals the code as written. |
| Users.Login | users.go:29-67 | A decode failure gives 500. An unknown email gives 401 "Unable to authenticate", and a comparison error gives 401 "Login failed", both without a token. With a known email and a matching password, the reply is 200 exactly when signing succeeds, and the process exits otherwise. Success is 200 with the looked-up user's public fields and a token signed for that user, with the lifetime selected as written. |
| Users.LoginTokenIdentifiesUser | users.go:55-66 | The token from a successful login validates to the id of the user stored under that email, and the response echoes that id and email. |
| Users.LoginTokenLapsesWithinHour | users.go:50-55 | For every requested lifetime whose 64-bit product does not overflow, the login token is rejected one hour after issue. |
| Users.LoginTokenOutlivesHourAsWritten | users.go:50-55 | As written, a request for -9223372037 seconds gives a token that still validates to the user an hour after issue. |
| Users.LoginFailuresDiffer | users.go:38-48 | Unknown email and wrong password share status 401 but not the message. |
| Users.Register | users.go:69-96 | For a decoded request, 201 exactly when hashing succeeds and the id is free; an undecodable body gives 500 with the store unchanged. It stores the bcrypt hash as a non-null column and replies with the public fields and an empty token. Otherwise the process exits with the store unchanged. |
| Users.RegisterReplyIgnoresHash | users.go:78-95 | The registration reply is the same whatever hash bcrypt produced, so no hash reaches the client. |
| Users.RegisterThenLogin | users.go:38-95 | A newly registered email and password log in, and the token validates to the new id. |

## Findings

| source | as written | input that shows it | evidently intended | confidence | as-written member | corrected member |
|---|---|---|---|---|---|---|
| users.go:52 | `time.Duration(body.ExpiresIn) * time.Second` is a 64-bit product. Negative requests pass the `!= 0 && <= 3600` clamp and the product can wrap. | `expires_in_seconds` = -9223372037 gives a lifetime of 9223372036709551616 ns, about 292 years. | The lifetime never exceeds one hour. | not executed | Users.TokenLifetimeAsWritten, Users.LifetimeAsWrittenOverflows | Users.TokenLifetime |

`Users.Login` follows the code as written, with
`Users.TokenLifetimeAsWritten`. `Users.LoginTokenOutlivesHourAsWritten`
shows the effect at the handler: the overflowing request yields a token
that outlives the hour. By `Users.LifetimeAgreesWithoutOverflow`, the
corrected `Users.TokenLifetime` differs from the code only for requests
below -9223372036 seconds.

## Behaviour worth noting

- **Malformed `Authorization` header.** `GetBearerToken` accepts any text
  before `"Bearer "`, and a bare `"Bearer "` yields the empty token `""`.
  A non-empty header without `"Bearer "` panics.
- **Signing secret.** Both `MakeJWT` and `ValidateJWT` ignore `tokenSecret`
  and use the constant `AllYourBase`, so a token validates whatever secret
  is passed.
- **Login failure messages.** An unknown email and a wrong password both
  give status 401, but with different messages.

## Left out

- HTTP plumbing is left out: JSON decoding and encoding, `respondWithJSON`/`respondWithError` (which are not part of this model), routing, static files and environment loading. A decode failure is the input `None`, and a reply is a status with a body or a message.
- `database.Queries` is not part of this model. Users are a sequence searched for the first match, and chirps are a map keyed by id. The only insert failure modelled is an id that is already taken. The other database errors are not modelled: `GetAllChirps` 500, `GetAllChirpsForUser` 500, `DeleteChripById` 403 and `CreateUser` for reasons other than the id.
- The refresh and revoke endpoints (`handlerRefresh`, `handlerRevoke`) and any API-key check are registered in main.go, but their code is not part of this model. So the refresh-token store and its revocation lifecycle are absent.
- bcrypt, HMAC-SHA256, golang-jwt's parsing (including algorithm checks) and `crypto/rand` are inputs. Only golang-jwt's default time checks are modelled: `exp` strictly after now, `nbf` at or before now, and `iat` unchecked.
- Time is a parameter. `MakeJWT` reads the clock three times, and the model uses a single instant for all three.
- Auth.ValidateJWT: the `log.Fatal` branch for an unexpected claims type is not modelled, because `ParseWithClaims` always yields `*MyCustomClaims` there.
- The error returns that follow `log.Fatal`/`log.Fatalf` are not modelled, because they are never reached. These are in `HashPassword`, `MakeJWT`, the login handler's unchecked token error and the register handler's hash-error 500, which `HashPassword`'s exit makes unreachable.
- Profanity.Censor: Go's `(?i)` also folds some non-ASCII letters, such as the Kelvin sign for `k` and long s for `s`. Only ASCII case is folded here.
- Users.LoginTokenLapsesWithinHour: covers only requests of -9223372036 seconds or more, because for the overflowing requests the code as written issues a token that outlives the hour (`Users.LoginTokenOutlivesHourAsWritten`).
- Header, path and query values are modelled as Unicode text (`string`), so byte strings that are not valid UTF-8, such as a percent-decoded `%FF` in `author_id`, are outside the model.
- Logging output (`fmt.Printf`, the match count) is left out, as are `reset.go`, the hit counter, and the readiness and metrics handlers.

=== FILE: api.dfy ===
/** What the handlers of `chirps.go` and `users.go` share: the server
    configuration, the rows of the two database tables, and the shape of an
    HTTP reply. The database itself is a value (`Db`) passed in and returned. */
module Api {
  import opened Wrappers
  import opened Text
  import Uuids
  import Auth

  const StatusOK := 200
  const StatusCreated := 201
  const StatusNoContent := 204
  const StatusBadRequest := 400
  const StatusUnauthorized := 401
  const StatusForbidden := 403
  const StatusNotFound := 404
  const StatusInternalServerError := 500

  /** `apiConfig` without its hit counter and platform flag, plus the
      cryptographic primitives the handlers reach through `internal/auth`. */
  datatype Config = Config(signingSecret: string, jwt: Auth.JwtCodec, bcrypt: Auth.Bcrypt)

  /** A row of the users table; `hashedPassword` is a nullable column. */
  datatype User = User(id: Uuids.Uuid, createdAt: int, updatedAt: int, email: string, hashedPassword: Option<string>)

  /** A row of the chirps table, which is also the JSON shape `Chirp` the
      chirp handlers answer with; `body` is the UTF-8 bytes of the text. */
  datatype Chirp = Chirp(id: Uuids.Uuid, createdAt: int, updatedAt: int, body: seq<byte>, userId: Uuids.Uuid)

  datatype Db = Db(users: seq<User>, chirps: map<Uuids.Uuid, Chirp>)

  /** What a handler writes: a JSON body with a status, an error message with
      a status (`respondWithError`), or nothing because the request aborted. */
  datatype Reply<+T> =
    | Respond(status: int, body: T)
    | Fail(status: int, message: string)
    | Abort(crash: Crash)

  /** `GetUserById`: the first user with that id. */
  function UserById(users: seq<User>, id: Uuids.Uuid): (r: Option<User>)
    ensures r.Some? ==> r.value in users && r.value.id == id
    ensures r.None? ==> forall u :: u in users ==> u.id != id
  {
    if users == [] then None
    else if users[0].id == id then Some(users[0])
    else UserById(users[1..], id)
  }

  /** `GetUserByEmail`: the first user with that email. */
  function UserByEmail(users: seq<User>, email: string): (r: Option<User>)
    ensures r.Some? ==> r.value in users && r.value.email == email
    ensures r.None? ==> forall u :: u in users ==> u.email != email
  {
    if users == [] then None
    else if users[0].email == email then Some(users[0])
    else UserByEmail(users[1..], email)
  }
}

=== FILE: auth.dfy ===
/** The credential helpers of `internal/auth/auth.go`.

    The cryptography is not modelled: bcrypt, the HS256 signer/parser of
    golang-jwt and the operating system's random source enter as values
    (`Bcrypt`, `JwtCodec`, `RandomRead`). What remains is the string and
    record logic around them. Times are Unix nanoseconds (Go's `time.Time`),
    durations are nanoseconds (Go's `time.Duration`). */
module Auth {
  import opened Wrappers
  import opened Text
  import Hex
  import Uuids

  // ---------------------------------------------------------------------
  // Passwords

  /** bcrypt as two black boxes: `generate` hashes a password at the default
      cost or fails; `compare` returns `None` when the password matches the
      hash and the comparison error otherwise. */
  datatype Bcrypt = Bcrypt(generate: string -> Option<string>, compare: (string, string) -> Option<string>)

  /** A hash that bcrypt produced for a password compares equal to it. */
  ghost predicate Consistent(b: Bcrypt) {
    forall p :: b.generate(p).Some? ==> b.compare(b.generate(p).value, p).None?
  }

  /** `HashPassword`: the bcrypt hash, or a process exit through `log.Fatalf`
      when bcrypt fails; the error return after it is never reached. */
  function HashPassword(b: Bcrypt, password: string): (r: Outcome<string>)
    ensures r.Ok? <==> b.generate(password).Some?
    ensures r.Ok? ==> Some(r.value) == b.generate(password)
    ensures !r.Ok? ==> r == Crash(Exit)
  {
    match b.generate(password)
    case Some(h) => Ok(h)
    case None => Crash(Exit)
  }

  /** The `(bool, error)` pair returned by `CheckPasswordHash`. */
  datatype PasswordCheck = PasswordCheck(ok: bool, err: Option<string>)

  function CheckPasswordHash(b: Bcrypt, hash: string, password: string): (r: PasswordCheck)
    ensures r.ok <==> b.compare(hash, password).None?
    ensures r.ok <==> r.err.None?
    ensures !r.ok ==> r.err == b.compare(hash, password)
  {
    match b.compare(hash, password)
    case None => PasswordCheck(true, None)
    case Some(e) => PasswordCheck(false, Some(e))
  }

  // ---------------------------------------------------------------------
  // Access tokens (JWT, HS256)

  /** The signing key. It is a constant: the `tokenSecret` arguments of
      `MakeJWT` and `ValidateJWT` are never read. */
  const MySecretKey: string := "AllYourBase"
  const TokenIssuer: string := "chirpy"
  const TokenId: string := "1"

  /** `time.Second` in nanoseconds. */
  const Second: int := 1_000_000_000

  /** The registered claims of RFC 7519 that the service sets; the three
      times are NumericDates (whole Unix seconds) and may be absent in a
      token that someone else built. */
  datatype Claims = Claims(
    issuer: string,
    subject: string,
    audience: seq<string>,
    expiresAt: Option<int>,
    notBefore: Option<int>,
    issuedAt: Option<int>,
    id: string)

  /** golang-jwt with HMAC-SHA256 as black boxes: `sign` produces the compact
      `header.payload.signature` serialisation of the claims under a key, or
      fails; `parse` checks the structure and the signature of a token under
      a key and gives back its claims. */
  datatype JwtCodec = JwtCodec(sign: (Claims, string) -> Option<string>, parse: (string, string) -> Option<Claims>)

  /** What is assumed of the library: a token it signed parses, under the
      same key, to the claims it was signed with. */
  ghost predicate Faithful(codec: JwtCodec) {
    forall c, key :: codec.sign(c, key).Some? ==> codec.parse(codec.sign(c, key).value, key) == Some(c)
  }

  /** `jwt.NewNumericDate`: a time truncated to whole seconds, i.e. rounded
      down (Dafny's division by a positive divisor is floor division). */
  function NumericDate(t: int): (d: int)
    ensures d * Second <= t < d * Second + Second
  {
    t / Second
  }

  /** The claim record `MakeJWT` signs for `userId` at time `now`. */
  function IssuedClaims(userId: Uuids.Uuid, now: int, expiresIn: int): Claims {
    var subject := Uuids.Format(userId);
    Claims(TokenIssuer, subject, [subject], Some(NumericDate(now + expiresIn)),
           Some(NumericDate(now)), Some(NumericDate(now)), TokenId)
  }

  /** `MakeJWT`: the signed token, or a process exit through `log.Fatal` when
      signing fails. `tokenSecret` is ignored. */
  function MakeJWT(codec: JwtCodec, userId: Uuids.Uuid, tokenSecret: string, expiresIn: int, now: int): (r: Outcome<string>)
    ensures !r.Err?
    ensures r.Ok? <==> codec.sign(IssuedClaims(userId, now, expiresIn), MySecretKey).Some?
    ensures r.Crash? ==> r.crash == Exit
  {
    match codec.sign(IssuedClaims(userId, now, expiresIn), MySecretKey)
    case Some(token) => Ok(token)
    case None => Crash(Exit)
  }

  /** golang-jwt's default time checks: `exp`, when present, must lie strictly
      after `now`; `nbf`, when present, at or before it; `iat` is not checked. */
  predicate InValidityWindow(c: Claims, now: int) {
    && (c.expiresAt.None? || now < c.expiresAt.value * Second)
    && (c.notBefore.None? || c.notBefore.value * Second <= now)
  }

  /** `ValidateJWT` at time `now`: the subject of a well-signed, current
      token, read with `uuid.MustParse` (which panics on a malformed subject).
      `tokenSecret` is ignored. */
  function ValidateJWT(codec: JwtCodec, tokenString: string, tokenSecret: string, now: int): (r: Outcome<Uuids.Uuid>)
    ensures r.Ok? ==> exists c :: codec.parse(tokenString, MySecretKey) == Some(c)
                                  && InValidityWindow(c, now) && Uuids.Parse(c.subject) == Some(r.value)
    ensures r.Err? <==> (codec.parse(tokenString, MySecretKey).None?
                         || !InValidityWindow(codec.parse(tokenString, MySecretKey).value, now))
    ensures r.Crash? <==> (&& codec.parse(tokenString, MySecretKey).Some?
                           && InValidityWindow(codec.parse(tokenString, MySecretKey).value, now)
                           && Uuids.Parse(codec.parse(tokenString, MySecretKey).value.subject).None?)
    ensures r.Crash? ==> r.crash == Panic
  {
    match codec.parse(tokenString, MySecretKey)
    case None => Err("token is malformed or its signature is invalid")
    case Some(c) =>
      if !InValidityWindow(c, now) then Err("token is expired or not valid yet")
      else match Uuids.Parse(c.subject)
        case Some(u) => Ok(u)
        case None => Crash(Panic)
  }

  /** A token `MakeJWT` issued parses back to the fixed claim record:
      subject and sole audience are the user id, issuer `chirpy`, id `1`,
      issued-at and not-before the issue time and expiry the issue time plus
      the lifetime, all in whole seconds. */
  lemma IssuedTokenClaims(codec: JwtCodec, userId: Uuids.Uuid, tokenSecret: string, expiresIn: int, now: int)
    requires Faithful(codec)
    requires MakeJWT(codec, userId, tokenSecret, expiresIn, now).Ok?
    ensures var c := codec.parse(MakeJWT(codec, userId, tokenSecret, expiresIn, now).value, MySecretKey);
            && c.Some?
            && c.value.subject == Uuids.Format(userId)
            && c.value.audience == [c.value.subject]
            && c.value.issuer == "chirpy" && c.value.id == "1"
            && c.value.issuedAt == c.value.notBefore == Some(NumericDate(now))
            && c.value.expiresAt == Some(NumericDate(now + expiresIn))
  {
    var c := IssuedClaims(userId, now, expiresIn);
    assert codec.sign(c, MySecretKey).Some?;
  }

  /** Round trip: whatever secrets are passed, a token issued at `now`
      validates to its user at any time from `now` until one second before
      its nominal expiry (the expiry is rounded down to a whole second). */
  lemma ValidateIssuedToken(codec: JwtCodec, userId: Uuids.Uuid, secret: string, otherSecret: string,
                            expiresIn: int, now: int, later: int)
    requires Faithful(codec)
    requires MakeJWT(codec, userId, secret, expiresIn, now).Ok?
    requires now <= later && later + Second <= now + expiresIn
    ensures ValidateJWT(codec, MakeJWT(codec, userId, secret, expiresIn, now).value, otherSecret, later) == Ok(userId)
  {
    var c := IssuedClaims(userId, now, expiresIn);
    assert codec.sign(c, MySecretKey).Some?;
    assert codec.parse(codec.sign(c, MySecretKey).value, MySecretKey) == Some(c);
    assert InValidityWindow(c, later);
    Uuids.ParseFormat(userId);
  }

  /** Once the lifetime has passed, the issued token no longer validates. */
  lemma IssuedTokenExpires(codec: JwtCodec, userId: Uuids.Uuid, secret: string, expiresIn: int, now: int, later: int)
    requires Faithful(codec)
    requires MakeJWT(codec, userId, secret, expiresIn, now).Ok?
    requires now + expiresIn <= later
    ensures ValidateJWT(codec, MakeJWT(codec, userId, secret, expiresIn, now).value, secret, later).Err?
  {
    var c := IssuedClaims(userId, now, expiresIn);
    assert codec.sign(c, MySecretKey).Some?;
    assert codec.parse(codec.sign(c, MySecretKey).value, MySecretKey) == Some(c);
    assert !InValidityWindow(c, later);
  }

  // ---------------------------------------------------------------------
  // Bearer credentials

  const BearerPrefix: string := "Bearer "

  /** `GetBearerToken` on the value of the `Authorization` header (`""` when
      the header is absent): the second piece of `strings.Split` on
      `"Bearer "`. A non-empty header without `"Bearer "` has no second
      piece, and indexing it panics. */
  function GetBearerToken(authorization: string): (r: Outcome<string>)
    ensures r.Err? <==> authorization == ""
    ensures r.Crash? <==> authorization != "" && !Contains(authorization, BearerPrefix)
    ensures r.Crash? ==> r.crash == Panic
    ensures r.Ok? ==> !Contains(r.value, BearerPrefix)
  {
    if authorization != "" then
      var parts := Split(authorization, BearerPrefix);
      SplitCount(authorization, BearerPrefix);
      SplitPiecesFree(authorization, BearerPrefix);
      if |parts| < 2 then Crash(Panic) else Ok(parts[1])
    else
      Err("no authorizzation header provided")
  }

  /** The token is the text between the first occurrence of `"Bearer "`
      (at `i`) and the next one (at `e`), or the end of the header; whatever
      precedes the first occurrence is discarded. */
  lemma BearerTokenBetweenOccurrences(authorization: string, i: nat, e: nat)
    requires OccursAt(authorization, BearerPrefix, i)
    requires forall j: nat :: j < i ==> !OccursAt(authorization, BearerPrefix, j)
    requires i + |BearerPrefix| <= e <= |authorization|
    requires e == |authorization| || OccursAt(authorization, BearerPrefix, e)
    requires forall j: nat :: i + |BearerPrefix| <= j < e ==> !OccursAt(authorization, BearerPrefix, j)
    ensures GetBearerToken(authorization) == Ok(authorization[i + |BearerPrefix|..e])
  {
    SecondPiece(authorization, BearerPrefix, i, e);
  }

  /** `"Bearer " + t` yields exactly `t` when `t` holds no `"Bearer "`; in
      particular `"Bearer "` alone yields the empty token without error. */
  lemma BearerOfPrefixed(t: string)
    requires !Contains(t, BearerPrefix)
    ensures GetBearerToken(BearerPrefix + t) == Ok(t)
  {
    var h := BearerPrefix + t;
    assert h[..|BearerPrefix|] == BearerPrefix;
    forall j: nat | |BearerPrefix| <= j
      ensures !OccursAt(h, BearerPrefix, j)
    {
      assert h[|BearerPrefix|..] == t;
      OccursInSuffix(h, BearerPrefix, |BearerPrefix|, j - |BearerPrefix|);
    }
    BearerTokenBetweenOccurrences(h, 0, |h|);
    assert h[|BearerPrefix|..|h|] == t;
  }

  // ---------------------------------------------------------------------
  // Refresh tokens

  /** Number of random bytes in a refresh token. */
  const RefreshTokenBytes: nat := 32

  /** What `rand.Read` did to the 32-byte buffer: its contents afterwards,
      the byte count and the error it returned. */
  datatype RandomRead = RandomRead(buffer: seq<byte>, n: int, err: Option<string>)

  /** `MakeRefreshToken`: the lower-case hex encoding of the buffer, unless
      the read reported an error or zero bytes. */
  function MakeRefreshToken(read: RandomRead): (r: Outcome<string>)
    requires |read.buffer| == RefreshTokenBytes
    ensures r.Ok? <==> read.err.None? && read.n != 0
    ensures !r.Ok? ==> r.Err?
    ensures r.Ok? ==> |r.value| == 64 && Hex.AllLowerHex(r.value)
    ensures r.Ok? ==> Hex.Decode(r.value) == Some(read.buffer)
  {
    if read.err.Some? then Err(read.err.value)
    else if read.n == 0 then Err("unable to read bytes - zero length")
    else
      Hex.DecodeEncode(read.buffer);
      Ok(Hex.Encode(read.buffer))
  }
}

=== FILE: chirp_order.dfy ===
/** The ordering step of the chirp list handler: `sort.Slice` with
    `CreatedAt.Before` (ascending) or `CreatedAt.After` (descending).
    `sort.Slice` is not stable, so among chirps created at the same instant
    any order is allowed; the insertion sort here is one such order. */
module ChirpOrder {
  import opened Api

  predicate InOrder(a: Chirp, b: Chirp, ascending: bool) {
    if ascending then a.createdAt <= b.createdAt else a.createdAt >= b.createdAt
  }

  ghost predicate Sorted(s: seq<Chirp>, ascending: bool) {
    forall i, j :: 0 <= i < j < |s| ==> InOrder(s[i], s[j], ascending)
  }

  /** A chirp in order with every chirp of a sorted sequence can head it. */
  lemma SortedCons(x: Chirp, t: seq<Chirp>, ascending: bool)
    requires Sorted(t, ascending)
    requires forall k | 0 <= k < |t| :: InOrder(x, t[k], ascending)
    ensures Sorted([x] + t, ascending)
  {
    var r := [x] + t;
    forall i, j | 0 <= i < j < |r|
      ensures InOrder(r[i], r[j], ascending)
    {
      assert r[j] == t[j - 1];
      if i > 0 {
        assert r[i] == t[i - 1];
      }
    }
  }

  function Insert(x: Chirp, s: seq<Chirp>, ascending: bool): (r: seq<Chirp>)
    requires Sorted(s, ascending)
    ensures Sorted(r, ascending)
    ensures multiset(r) == multiset(s) + multiset{x}
  {
    if s == [] then [x]
    else if InOrder(x, s[0], ascending) then
      [x] + s
    else
      var tail := Insert(x, s[1..], ascending);
      assert s == [s[0]] + s[1..];
      forall k | 0 <= k < |tail|
        ensures InOrder(s[0], tail[k], ascending)
      {
        assert tail[k] in multiset(tail);
      }
      SortedCons(s[0], tail, ascending);
      [s[0]] + tail
  }

  /** The rows in the requested order: the same rows (as a multiset), sorted
      by creation time. */
  function SortByCreatedAt(rows: seq<Chirp>, ascending: bool): (r: seq<Chirp>)
    ensures Sorted(r, ascending)
    ensures multiset(r) == multiset(rows)
  {
    if rows == [] then []
    else
      assert rows == [rows[0]] + rows[1..];
      Insert(rows[0], SortByCreatedAt(rows[1..], ascending), ascending)
  }
}

=== FILE: chirps.dfy ===
/** The chirp handlers of `chirps.go`: create, list, fetch one, delete.
    Each is a function from the configuration, the database and the parts
    of the request it reads to a reply and (for create and delete) the new
    database. A request body that failed to decode as JSON is `None`. */
module Chirps {
  import opened Wrappers
  import opened Text
  import opened Api
  import Uuids
  import Auth
  import Profanity
  import RefreshShape
  import ChirpOrder

  /** `maxChirpLength`, in bytes of the undecorated body. */
  const MaxChirpLength: nat := 140

  // ---------------------------------------------------------------------
  // POST /api/chirps

  /** `handlerChirps`. Checks run in order and the first that fails decides
      the reply: decoding (500), the bearer token (401), the refresh-token
      shape (401), the JWT (401), the author lookup (500), the length (400),
      the insert (500). On success the censored body is stored under
      `newId`, the id the database generates, with `now` as both
      timestamps. */
  function CreateChirp(cfg: Config, db: Db, body: Option<seq<byte>>, authorization: string,
                       newId: Uuids.Uuid, now: int): (r: (Reply<Chirp>, Db))
    ensures !r.0.Respond? ==> r.1 == db
    ensures r.0.Respond? ==> && r.0.status == StatusCreated
                             && newId !in db.chirps
                             && r.1 == db.(chirps := db.chirps[newId := r.0.body])
                             && r.0.body.id == newId
                             && r.0.body.createdAt == now && r.0.body.updatedAt == now
    ensures r.0.Respond? ==> && body.Some?
                             && |body.value| <= MaxChirpLength
                             && r.0.body.body == Profanity.Censor(body.value)
                             && |r.0.body.body| <= MaxChirpLength
                             && Profanity.Clean(r.0.body.body)
    ensures r.0.Respond? ==> && Auth.GetBearerToken(authorization).Ok?
                             && !RefreshShape.HasHexRun(Auth.GetBearerToken(authorization).value)
                             && Auth.ValidateJWT(cfg.jwt, Auth.GetBearerToken(authorization).value,
                                                 cfg.signingSecret, now) == Ok(r.0.body.userId)
                             && UserById(db.users, r.0.body.userId).Some?
    ensures r.0.Abort? ==> r.0.crash == Panic
  {
    match body
    case None => (Fail(StatusInternalServerError, "Couldnt decode request body"), db)
    case Some(text) =>
      match Auth.GetBearerToken(authorization)
      case Crash(c) => (Abort(c), db)
      case Err(_) => (Fail(StatusUnauthorized, "invalid authorization token provided"), db)
      case Ok(token) =>
        if RefreshShape.LooksLikeRefreshToken(token) then
          (Fail(StatusUnauthorized, "Attempting to use refresh token as access token"), db)
        else
          match Auth.ValidateJWT(cfg.jwt, token, cfg.signingSecret, now)
          case Crash(c) => (Abort(c), db)
          case Err(_) => (Fail(StatusUnauthorized, "invalid authorization token provided - invalid user"), db)
          case Ok(userId) =>
            match UserById(db.users, userId)
            case None => (Fail(StatusInternalServerError, "Couldn't fetch user from db"), db)
            case Some(user) =>
              if |text| > MaxChirpLength then (Fail(StatusBadRequest, "Chirp is too long"), db)
              else if newId in db.chirps then (Fail(StatusInternalServerError, "Could not create chirp"), db)
              else
                var stored := Profanity.Censor(text);
                Profanity.CensorIsClean(text);
                var chirp := Chirp(newId, now, now, stored, user.id);
                (Respond(StatusCreated, chirp), db.(chirps := db.chirps[newId := chirp]))
  }

  /** The status of each failing check, in the order the checks run: a later
      check only decides when every earlier one passed. */
  lemma CreateCheckOrder(cfg: Config, db: Db, body: Option<seq<byte>>, authorization: string,
                         newId: Uuids.Uuid, now: int)
    ensures var reply := CreateChirp(cfg, db, body, authorization, newId, now).0;
            var bearer := Auth.GetBearerToken(authorization);
            var jwt := Auth.ValidateJWT(cfg.jwt, if bearer.Ok? then bearer.value else "", cfg.signingSecret, now);
            && (body.None? ==> reply.Fail? && reply.status == StatusInternalServerError)
            && (body.Some? && authorization == "" ==> reply.Fail? && reply.status == StatusUnauthorized)
            && (body.Some? && bearer.Crash? ==> reply == Abort(Panic))
            && (body.Some? && bearer.Ok? && RefreshShape.HasHexRun(bearer.value)
                ==> reply.Fail? && reply.status == StatusUnauthorized)
            && (body.Some? && bearer.Ok? && !RefreshShape.HasHexRun(bearer.value) && jwt.Err?
                ==> reply.Fail? && reply.status == StatusUnauthorized)
            && (body.Some? && bearer.Ok? && !RefreshShape.HasHexRun(bearer.value) && jwt.Crash?
                ==> reply == Abort(Panic))
            && (body.Some? && bearer.Ok? && !RefreshShape.HasHexRun(bearer.value) && jwt.Ok?
                && UserById(db.users, jwt.value).None?
                ==> reply.Fail? && reply.status == StatusInternalServerError)
            && (body.Some? && bearer.Ok? && !RefreshShape.HasHexRun(bearer.value) && jwt.Ok?
                && UserById(db.users, jwt.value).Some? && |body.value| > MaxChirpLength
                ==> reply.Fail? && reply.status == StatusBadRequest)
            && (body.Some? && bearer.Ok? && !RefreshShape.HasHexRun(bearer.value) && jwt.Ok?
                && UserById(db.users, jwt.value).Some? && |body.value| <= MaxChirpLength
                ==> (reply.Respond? <==> newId !in db.chirps))
  {
  }

  /** A refresh token that `MakeRefreshToken` produced, presented as the
      bearer credential, is refused with 401 before any JWT check, whatever
      the signer does, and nothing is stored. */
  lemma RefreshTokenRejected(cfg: Config, db: Db, body: seq<byte>, read: Auth.RandomRead,
                             newId: Uuids.Uuid, now: int)
    requires |read.buffer| == Auth.RefreshTokenBytes
    requires Auth.MakeRefreshToken(read).Ok?
    ensures CreateChirp(cfg, db, Some(body), Auth.BearerPrefix + Auth.MakeRefreshToken(read).value, newId, now)
            == (Fail(StatusUnauthorized, "Attempting to use refresh token as access token"), db)
  {
    var t := Auth.MakeRefreshToken(read).value;
    forall j: nat
      ensures !OccursAt(t, Auth.BearerPrefix, j)
    {
      if j + |Auth.BearerPrefix| <= |t| {
        assert t[j..j + |Auth.BearerPrefix|][0] == t[j];
      }
    }
    Auth.BearerOfPrefixed(t);
    RefreshShape.HexStringMatches(t);
  }

  // ---------------------------------------------------------------------
  // GET /api/chirps

  /** The rows of one author, in their original order. */
  function ByAuthor(rows: seq<Chirp>, author: Uuids.Uuid): (r: seq<Chirp>)
    ensures forall c :: multiset(r)[c] == if c.userId == author then multiset(rows)[c] else 0
  {
    if rows == [] then []
    else
      assert rows == [rows[0]] + rows[1..];
      (if rows[0].userId == author then [rows[0]] else []) + ByAuthor(rows[1..], author)
  }

  /** `handlerAllChirps` over the rows the database holds: the optional
      `author_id` query parameter (read with `uuid.MustParse`) selects one
      author's chirps, and the `sort` parameter, `asc` when empty, orders
      them ascending by creation time; any other value orders them
      descending. */
  function ListChirps(rows: seq<Chirp>, authorId: string, sortParam: string): (r: Reply<seq<Chirp>>)
    ensures r.Abort? <==> authorId != "" && Uuids.Parse(authorId).None?
    ensures r.Abort? ==> r.crash == Panic
    ensures !r.Fail?
    ensures r.Respond? ==> r.status == StatusOK
    ensures r.Respond? && authorId == "" ==> multiset(r.body) == multiset(rows)
    ensures r.Respond? && authorId != "" ==>
              forall c :: multiset(r.body)[c] == if c.userId == Uuids.Parse(authorId).value then multiset(rows)[c] else 0
    ensures r.Respond? ==> ChirpOrder.Sorted(r.body, sortParam == "" || sortParam == "asc")
  {
    var selected :=
      if authorId == "" then Some(rows)
      else match Uuids.Parse(authorId)
        case None => None
        case Some(author) => Some(ByAuthor(rows, author));
    match selected
    case None => Abort(Panic)
    case Some(chirps) =>
      var direction := if sortParam == "" then "asc" else sortParam;
      Respond(StatusOK, ChirpOrder.SortByCreatedAt(chirps, direction == "asc"))
  }

  // ---------------------------------------------------------------------
  // GET /api/chirps/{chirpID}

  /** `handlerChirpById`: the stored chirp, 404 when there is none, and a
      panic from `uuid.MustParse` on a malformed id. */
  function GetChirp(db: Db, chirpIdParam: string): (r: Reply<Chirp>)
    ensures r.Abort? <==> Uuids.Parse(chirpIdParam).None?
    ensures r.Respond? <==> Uuids.Parse(chirpIdParam).Some? && Uuids.Parse(chirpIdParam).value in db.chirps
    ensures r.Respond? ==> r.status == StatusOK && r.body == db.chirps[Uuids.Parse(chirpIdParam).value]
    ensures r.Fail? ==> r.status == StatusNotFound
  {
    match Uuids.Parse(chirpIdParam)
    case None => Abort(Panic)
    case Some(id) =>
      if id in db.chirps then Respond(StatusOK, db.chirps[id])
      else Fail(StatusNotFound, "Unable to get chrip by ID: " + Uuids.Format(id))
  }

  // ---------------------------------------------------------------------
  // DELETE /api/chirps/{chirpID}

  /** `handlerDeleteChirp`. It splits the header on `"Bearer "` itself
      instead of calling `GetBearerToken`, and applies no refresh-token
      shape check. */
  function DeleteChirp(cfg: Config, db: Db, authorization: string, chirpIdParam: string, now: int): (r: (Reply<()>, Db))
    ensures r.1 == db || (r.0.Respond? && r.0.status == StatusNoContent)
    ensures r.0.Fail? ==> r.0.status in {StatusUnauthorized, StatusForbidden}
    ensures r.0.Abort? ==> r.0.crash == Panic
  {
    if authorization == "" then
      (Fail(StatusUnauthorized, "no authorization header found"), db)
    else
      var parts := Split(authorization, Auth.BearerPrefix);
      if |parts| < 2 then (Abort(Panic), db)
      else
        match Auth.ValidateJWT(cfg.jwt, parts[1], cfg.signingSecret, now)
        case Crash(c) => (Abort(c), db)
        case Err(_) => (Fail(StatusUnauthorized, "invalid JWT token"), db)
        case Ok(userId) =>
          match Uuids.Parse(chirpIdParam)
          case None => (Abort(Panic), db)
          case Some(id) =>
            if id !in db.chirps then
              (Fail(StatusForbidden, "Unable to fetch chrip by ID: " + Uuids.Format(id)), db)
            else if db.chirps[id].userId != userId then
              (Fail(StatusForbidden, "user is not chrip owner"), db)
            else
              (Respond(StatusNoContent, ()), db.(chirps := db.chirps - {id}))
  }

  /** The user a request authenticates as: the subject of the JWT carried in
      the `Authorization` header, as `GetBearerToken` and `ValidateJWT` read
      it. */
  function Caller(cfg: Config, authorization: string, now: int): Option<Uuids.Uuid> {
    match Auth.GetBearerToken(authorization)
    case Ok(token) =>
      (match Auth.ValidateJWT(cfg.jwt, token, cfg.signingSecret, now)
       case Ok(u) => Some(u)
       case _ => None)
    case _ => None
  }

  /** Delete is gated on ownership: it succeeds exactly when the caller's
      token is valid and names the owner of an existing chirp; it then
      removes that chirp and nothing else. A missing chirp or another
      owner gives 403 and leaves the store as it was. */
  lemma DeleteOnlyByOwner(cfg: Config, db: Db, authorization: string, chirpIdParam: string, now: int)
    ensures var (reply, db') := DeleteChirp(cfg, db, authorization, chirpIdParam, now);
            var caller := Caller(cfg, authorization, now);
            var id := Uuids.Parse(chirpIdParam);
            && (reply.Respond? <==> caller.Some? && id.Some? && id.value in db.chirps
                                    && db.chirps[id.value].userId == caller.value)
            && (reply.Respond? ==> db'.users == db.users && db'.chirps.Keys == db.chirps.Keys - {id.value}
                                   && forall k :: k in db'.chirps ==> db'.chirps[k] == db.chirps[k])
            && (caller.Some? && id.Some? && !(id.value in db.chirps && db.chirps[id.value].userId == caller.value)
                ==> reply.Fail? && reply.status == StatusForbidden && db' == db)
  {
    if authorization != "" {
      var parts := Split(authorization, Auth.BearerPrefix);
      assert |parts| >= 2 ==> Auth.GetBearerToken(authorization) == Ok(parts[1]);
    }
  }
}

=== FILE: hex.dfy ===
/** Hexadecimal text: Go's `hex.EncodeToString` (lower-case digits, high
    nibble first) and a decoder that, like Go's, accepts either case. */
module Hex {
  import opened Wrappers
  import opened Text

  const Digits: string := "0123456789abcdef"

  predicate IsLowerHexDigit(c: char) {
    ('0' <= c <= '9') || ('a' <= c <= 'f')
  }

  /** Every character of `s` is one of `0-9a-f`. */
  predicate AllLowerHex(s: string) {
    forall i :: 0 <= i < |s| ==> IsLowerHexDigit(s[i])
  }

  /** The value of a hex digit of either case; `None` for anything else. */
  function DigitValue(c: char): (r: Option<nat>)
    ensures r.Some? ==> r.value < 16 && c as int < 128
    ensures IsLowerHexDigit(c) ==> r.Some? && Digits[r.value] == c
  {
    if '0' <= c <= '9' then Some(c as nat - '0' as nat)
    else if 'a' <= c <= 'f' then Some(c as nat - 'a' as nat + 10)
    else if 'A' <= c <= 'F' then Some(c as nat - 'A' as nat + 10)
    else None
  }

  /** Go's `hex.EncodeToString`. */
  function Encode(bytes: seq<byte>): (s: string)
    ensures |s| == 2 * |bytes|
    ensures AllLowerHex(s)
  {
    if bytes == [] then ""
    else [Digits[bytes[0] as int / 16], Digits[bytes[0] as int % 16]] + Encode(bytes[1..])
  }

  /** Two hex digits per byte; `None` on an odd length or a non-digit. */
  function Decode(s: string): (r: Option<seq<byte>>)
    ensures r.Some? ==> 2 * |r.value| == |s|
    ensures r.Some? ==> forall i :: 0 <= i < |s| ==> DigitValue(s[i]).Some?
  {
    if s == [] then Some([])
    else if |s| == 1 then None
    else match (DigitValue(s[0]), DigitValue(s[1]), Decode(s[2..]))
      case (Some(hi), Some(lo), Some(rest)) => Some([(hi * 16 + lo) as byte] + rest)
      case _ => None
  }

  lemma DigitValueOfDigits(n: nat)
    requires n < 16
    ensures DigitValue(Digits[n]) == Some(n)
  {
  }

  /** Decoding two leading digits and a decodable rest. */
  lemma DecodeCons(a: char, b: char, t: string, hi: nat, lo: nat, rest: seq<byte>)
    requires hi < 16 && lo < 16
    requires DigitValue(a) == Some(hi) && DigitValue(b) == Some(lo)
    requires Decode(t) == Some(rest)
    ensures Decode([a, b] + t) == Some([(hi * 16 + lo) as byte] + rest)
  {
    var s := [a, b] + t;
    assert s[0] == a && s[1] == b && s[2..] == t;
  }

  /** Decoding inverts encoding. */
  lemma {:induction false} DecodeEncode(bytes: seq<byte>)
    ensures Decode(Encode(bytes)) == Some(bytes)
  {
    if bytes != [] {
      var b := bytes[0] as int;
      var hi, lo := b / 16, b % 16;
      DigitValueOfDigits(hi);
      DigitValueOfDigits(lo);
      DecodeEncode(bytes[1..]);
      DecodeCons(Digits[hi], Digits[lo], Encode(bytes[1..]), hi, lo, bytes[1..]);
      assert (hi * 16 + lo) as byte == bytes[0];
      assert [bytes[0]] + bytes[1..] == bytes;
    }
  }
}

=== FILE: profanity.dfy ===
/** The profanity filter of the chirp create handler: the regular expression
    `(?i)(kerfuffle)|(sharbert)|(fornax)` with every match replaced by
    `****`. Matching is on the bytes of the body and case-insensitive for
    ASCII letters; there are no word boundaries, so a word inside a longer
    word is replaced too. */
module Profanity {
  import opened Wrappers
  import opened Text

  /** `SUB_STRING`, the replacement `****`. */
  const Mask: seq<byte> := [42, 42, 42, 42]

  /** The three alternatives of the expression, in order, as ASCII bytes:
      `kerfuffle`, `sharbert`, `fornax`. */
  const Words: seq<seq<byte>> := [
    [107, 101, 114, 102, 117, 102, 102, 108, 101],
    [115, 104, 97, 114, 98, 101, 114, 116],
    [102, 111, 114, 110, 97, 120]
  ]

  /** Every word starts with a lower-case ASCII letter and is at least as long
      as the mask. */
  predicate WellFormedWord(w: seq<byte>) {
    |w| >= |Mask| && 97 <= w[0] <= 122
  }

  lemma WordsWellFormed()
    ensures forall k :: 0 <= k < |Words| ==> WellFormedWord(Words[k])
  {
  }

  /** ASCII lower-casing of one byte. */
  function Lower(b: byte): byte {
    if 65 <= b <= 90 then b + 32 else b
  }

  /** `w` matches `s` at `i`, ignoring ASCII case. */
  predicate MatchesAt(s: seq<byte>, i: nat, w: seq<byte>) {
    i + |w| <= |s| && forall k :: 0 <= k < |w| ==> Lower(s[i + k]) == w[k]
  }

  /** Some word matches at `i`. */
  predicate ProfaneAt(s: seq<byte>, i: nat) {
    exists k :: 0 <= k < |Words| && MatchesAt(s, i, Words[k])
  }

  /** No word matches anywhere. */
  ghost predicate Clean(s: seq<byte>) {
    forall i: nat :: !ProfaneAt(s, i)
  }

  /** The first alternative that matches at the start of `s`. */
  function WordAtStart(s: seq<byte>): (r: Option<nat>)
    ensures r.Some? ==> r.value < |Words| && MatchesAt(s, 0, Words[r.value])
    ensures r.None? <==> !ProfaneAt(s, 0)
  {
    if MatchesAt(s, 0, Words[0]) then Some(0)
    else if MatchesAt(s, 0, Words[1]) then Some(1)
    else if MatchesAt(s, 0, Words[2]) then Some(2)
    else None
  }

  /** `regexp.ReplaceAllString(body, "****")`: scan left to right; where a
      word matches, emit the mask and continue after the match; otherwise
      keep the byte. */
  function Censor(s: seq<byte>): (r: seq<byte>)
    ensures |r| <= |s|
    decreases |s|
  {
    if s == [] then []
    else match WordAtStart(s)
      case Some(k) =>
        WordsWellFormed();
        Mask + Censor(s[|Words[k]|..])
      case None => [s[0]] + Censor(s[1..])
  }

  /** A match past a prefix is a match in what follows the prefix. */
  lemma MatchAfterPrefix(p: seq<byte>, rest: seq<byte>, i: nat, w: seq<byte>)
    requires |p| <= i
    ensures MatchesAt(p + rest, i, w) ==> MatchesAt(rest, i - |p|, w)
  {
    if MatchesAt(p + rest, i, w) {
      forall m | 0 <= m < |w|
        ensures Lower(rest[i - |p| + m]) == w[m]
      {
        assert (p + rest)[i + m] == rest[i - |p| + m];
      }
    }
  }

  /** A pattern without `*` that matches the filtered text at its start
      already matched the original text there. */
  lemma {:induction false} MatchThroughCensor(t: seq<byte>, v: seq<byte>)
    requires forall k :: 0 <= k < |v| ==> v[k] != 42
    ensures MatchesAt(Censor(t), 0, v) ==> MatchesAt(t, 0, v)
    decreases |t|
  {
    if t != [] && v != [] {
      match WordAtStart(t)
      case Some(k) =>
        assert Censor(t) == Mask + Censor(t[|Words[k]|..]);
        assert Lower(Censor(t)[0]) != v[0];
      case None =>
        var rest := Censor(t[1..]);
        assert Censor(t) == [t[0]] + rest;
        if MatchesAt(Censor(t), 0, v) {
          MatchAfterPrefix([t[0]], rest, 1, v[1..]);
          MatchThroughCensor(t[1..], v[1..]);
          assert MatchesAt(t, 0, v) by {
            forall m | 0 <= m < |v|
              ensures Lower(t[m]) == v[m]
            {
              if m > 0 {
                assert t[1..][m - 1] == t[m];
                assert v[1..][m - 1] == v[m];
              }
            }
          }
        }
    }
  }

  /** Prefixing clean text with the mask keeps it clean. */
  lemma CleanAfterMask(rest: seq<byte>)
    requires Clean(rest)
    ensures Clean(Mask + rest)
  {
    WordsWellFormed();
    var r := Mask + rest;
    forall i: nat, w | 0 <= w < |Words| && MatchesAt(r, i, Words[w])
      ensures false
    {
      if i < |Mask| {
        assert false;
      } else {
        MatchAfterPrefix(Mask, rest, i, Words[w]);
        assert ProfaneAt(rest, i - |Mask|);
      }
    }
  }

  /** Past its first letter no word holds a `*`. */
  lemma WordTailHasNoStar(w: nat)
    requires w < |Words|
    ensures forall m :: 0 <= m < |Words[w][1..]| ==> Words[w][1..][m] != 42
  {
  }

  /** A word matching at a first byte kept in front of the filtered rest
      matched the original text there: its tail, which holds no `*`, matched
      the filtered rest at its start, and so the original rest. */
  lemma KeptByteMatch(s: seq<byte>, w: nat)
    requires s != [] && w < |Words|
    ensures MatchesAt([s[0]] + Censor(s[1..]), 0, Words[w]) ==> MatchesAt(s, 0, Words[w])
  {
    var rest := Censor(s[1..]);
    var r := [s[0]] + rest;
    if MatchesAt(r, 0, Words[w]) {
      var word := Words[w];
      var tail := word[1..];
      WordTailHasNoStar(w);
      assert MatchesAt(r, 1, tail) by {
        forall m | 0 <= m < |tail|
          ensures Lower(r[1 + m]) == tail[m]
        {
          assert tail[m] == word[m + 1];
        }
      }
      MatchAfterPrefix([s[0]], rest, 1, tail);
      MatchThroughCensor(s[1..], tail);
      assert MatchesAt(s, 0, word) by {
        forall m | 0 <= m < |word|
          ensures Lower(s[m]) == word[m]
        {
          if m > 0 {
            assert s[1..][m - 1] == s[m];
          }
        }
      }
    }
  }

  /** Keeping a first byte that starts no match, in front of filtered text,
      gives clean text. */
  lemma CleanAfterKeptByte(s: seq<byte>)
    requires s != [] && !ProfaneAt(s, 0)
    requires Clean(Censor(s[1..]))
    ensures Clean([s[0]] + Censor(s[1..]))
  {
    var rest := Censor(s[1..]);
    var r := [s[0]] + rest;
    forall i: nat, w | 0 <= w < |Words|
      ensures !MatchesAt(r, i, Words[w])
    {
      if i == 0 {
        KeptByteMatch(s, w);
      } else {
        assert !ProfaneAt(rest, i - 1);
        MatchAfterPrefix([s[0]], rest, i, Words[w]);
      }
    }
  }

  /** The filtered text contains no case-insensitive occurrence of any word. */
  lemma {:induction false} CensorIsClean(s: seq<byte>)
    ensures Clean(Censor(s))
    decreases |s|
  {
    if s != [] {
      match WordAtStart(s)
      case Some(k) =>
        WordsWellFormed();
        CensorIsClean(s[|Words[k]|..]);
        CleanAfterMask(Censor(s[|Words[k]|..]));
      case None =>
        CensorIsClean(s[1..]);
        CleanAfterKeptByte(s);
    }
  }

  /** Text without any occurrence passes through unchanged. */
  lemma {:induction false} CensorKeepsClean(s: seq<byte>)
    requires Clean(s)
    ensures Censor(s) == s
    decreases |s|
  {
    if s != [] {
      assert !ProfaneAt(s, 0);
      forall i: nat
        ensures !ProfaneAt(s[1..], i)
      {
        assert !ProfaneAt(s, i + 1);
        forall w | 0 <= w < |Words| && MatchesAt(s[1..], i, Words[w])
          ensures false
        {
          assert MatchesAt(s, i + 1, Words[w]) by {
            forall m | 0 <= m < |Words[w]|
              ensures Lower(s[i + 1 + m]) == Words[w][m]
            {
              assert s[1..][i + m] == s[i + 1 + m];
            }
          }
        }
      }
      CensorKeepsClean(s[1..]);
      assert s == [s[0]] + s[1..];
    }
  }

  /** Dropping the first byte shifts every match one place to the left. */
  lemma MatchShift(s: seq<byte>, i: nat, w: seq<byte>)
    requires s != []
    ensures MatchesAt(s[1..], i, w) <==> MatchesAt(s, i + 1, w)
  {
    if MatchesAt(s, i + 1, w) {
      forall m | 0 <= m < |w|
        ensures Lower(s[1..][i + m]) == w[m]
      {
        assert s[1..][i + m] == s[i + 1 + m];
      }
    }
    if MatchesAt(s[1..], i, w) {
      forall m | 0 <= m < |w|
        ensures Lower(s[i + 1 + m]) == w[m]
      {
        assert s[1..][i + m] == s[i + 1 + m];
      }
    }
  }

  /** A first byte where no match starts is kept. */
  lemma CensorFirstKept(p: seq<byte>, t: seq<byte>)
    requires p != [] && !ProfaneAt(p + t, 0)
    ensures Censor(p + t) == [p[0]] + Censor(p[1..] + t)
  {
    assert (p + t)[1..] == p[1..] + t;
  }

  /** The same step, for text split into a non-empty prefix and the rest. */
  lemma CensorKeptByte(p: seq<byte>, t: seq<byte>, c: seq<byte>)
    requires p != [] && !ProfaneAt(p + t, 0)
    requires Censor(p[1..] + t) == p[1..] + c
    ensures Censor(p + t) == p + c
  {
    CensorFirstKept(p, t);
    assert [p[0]] + (p[1..] + c) == p + c by {
      assert [p[0]] + p[1..] == p;
    }
  }

  /** No match starts in the shortened prefix of the shortened text. */
  lemma NoMatchAfterFirst(p: seq<byte>, t: seq<byte>)
    requires p != []
    requires forall i :: 0 <= i < |p| ==> !ProfaneAt(p + t, i)
    ensures forall i :: 0 <= i < |p[1..]| ==> !ProfaneAt(p[1..] + t, i)
  {
    var s := p + t;
    assert s[1..] == p[1..] + t;
    forall i | 0 <= i < |p[1..]|
      ensures !ProfaneAt(p[1..] + t, i)
    {
      assert !ProfaneAt(s, i + 1);
      forall w | 0 <= w < |Words| && MatchesAt(s[1..], i, Words[w])
        ensures false
      {
        MatchShift(s, i, Words[w]);
      }
    }
  }

  /** Bytes where no match starts are kept as they are. */
  lemma {:induction false} CensorKeepsPrefix(p: seq<byte>, t: seq<byte>)
    requires forall i :: 0 <= i < |p| ==> !ProfaneAt(p + t, i)
    ensures Censor(p + t) == p + Censor(t)
    decreases |p|
  {
    if p != [] {
      assert !ProfaneAt(p + t, 0);
      NoMatchAfterFirst(p, t);
      CensorKeepsPrefix(p[1..], t);
      CensorKeptByte(p, t, Censor(t));
    } else {
      assert p + t == t && p + Censor(t) == Censor(t);
    }
  }

  /** A word at the start, in any ASCII case, becomes the mask; the words
      begin with different letters, so no other alternative competes. */
  lemma CensorWordAtStart(m: seq<byte>, q: seq<byte>, k: nat)
    requires k < |Words| && |m| == |Words[k]| && MatchesAt(m, 0, Words[k])
    ensures Censor(m + q) == Mask + Censor(q)
  {
    var s := m + q;
    assert MatchesAt(s, 0, Words[k]) by {
      assert forall j :: 0 <= j < |m| ==> s[j] == m[j];
    }
    forall j | 0 <= j < |Words| && j != k
      ensures !MatchesAt(s, 0, Words[j])
    {
      assert Words[j][0] != Words[k][0];
    }
    assert WordAtStart(s) == Some(k);
    assert s[|Words[k]|..] == q;
  }

  /** The filter on text holding a word: what precedes the first match is
      kept, the match (even inside a longer word) becomes `****`, and the
      filter goes on after it. */
  lemma CensorMatch(p: seq<byte>, m: seq<byte>, q: seq<byte>, k: nat)
    requires forall i :: 0 <= i < |p| ==> !ProfaneAt(p + m + q, i)
    requires k < |Words| && |m| == |Words[k]| && MatchesAt(m, 0, Words[k])
    ensures Censor(p + m + q) == p + Mask + Censor(q)
  {
    assert p + m + q == p + (m + q);
    CensorKeepsPrefix(p, m + q);
    CensorWordAtStart(m, q, k);
  }

  /** Filtering twice is filtering once. */
  lemma CensorIdempotent(s: seq<byte>)
    ensures Censor(Censor(s)) == Censor(s)
  {
    CensorIsClean(s);
    CensorKeepsClean(Censor(s));
  }
}

=== FILE: refresh_shape.dfy ===
/** The create handler's guard against refresh tokens presented as access
    tokens: `regexp.Match("[0-9a-f]{64}", token)`. The expression is not
    anchored, so it asks whether the token holds 64 consecutive lower-case
    hex digits anywhere. */
module RefreshShape {
  import Hex

  const RunLength: nat := 64

  /** The 64 characters starting at `j` are all lower-case hex digits. */
  ghost predicate HexRunAt(t: string, j: nat) {
    j + RunLength <= |t| && forall k :: j <= k < j + RunLength ==> Hex.IsLowerHexDigit(t[k])
  }

  ghost predicate HasHexRun(t: string) {
    exists j: nat :: HexRunAt(t, j)
  }

  /** One left-to-right pass: `run` counts the hex digits that end just
      before `i`, and no run of 64 has ended before `i`. */
  function ScanFrom(t: string, i: nat, run: nat): (r: bool)
    requires i <= |t| && run <= i && run < RunLength
    requires forall k :: i - run <= k < i ==> Hex.IsLowerHexDigit(t[k])
    requires run < i ==> !Hex.IsLowerHexDigit(t[i - run - 1])
    requires forall j: nat :: j + RunLength <= i ==> !HexRunAt(t, j)
    ensures r <==> HasHexRun(t)
    decreases |t| - i
  {
    if i == |t| then false
    else if Hex.IsLowerHexDigit(t[i]) then
      if run + 1 == RunLength then
        assert HexRunAt(t, i + 1 - RunLength);
        true
      else
        assert forall j: nat :: j + RunLength == i + 1 ==> !HexRunAt(t, j) by {
          forall j: nat | j + RunLength == i + 1
            ensures !HexRunAt(t, j)
          {
            assert j <= i - run - 1;
          }
        }
        ScanFrom(t, i + 1, run + 1)
    else
      assert forall j: nat :: j + RunLength == i + 1 ==> !HexRunAt(t, j) by {
        forall j: nat | j + RunLength == i + 1
          ensures !HexRunAt(t, j)
        {
          assert j <= i;
        }
      }
      ScanFrom(t, i + 1, 0)
  }

  /** The regular expression matches the token. */
  function LooksLikeRefreshToken(t: string): (r: bool)
    ensures r <==> HasHexRun(t)
  {
    ScanFrom(t, 0, 0)
  }

  /** Any string of 64 lower-case hex digits has that shape. */
  lemma HexStringMatches(t: string)
    requires |t| == RunLength && Hex.AllLowerHex(t)
    ensures LooksLikeRefreshToken(t)
  {
    assert HexRunAt(t, 0);
  }
}

=== FILE: text.dfy ===
/** Strings and bytes: occurrences of a separator, and Go's `strings.Split`
    for a non-empty separator, with `Join` as its inverse. */
module Text {
  import opened Wrappers

  newtype byte = x: int | 0 <= x < 256

  /** `sep` occurs in `s` starting at index `i`. */
  predicate OccursAt(s: string, sep: string, i: nat) {
    i + |sep| <= |s| && s[i..i + |sep|] == sep
  }

  ghost predicate Contains(s: string, sep: string) {
    exists i: nat :: OccursAt(s, sep, i)
  }

  /** Index of the first occurrence of `sep` at or after `start`; what
      makes it the first occurrence is `IndexFromFirst`. */
  function IndexFrom(s: string, sep: string, start: nat): (r: Option<nat>)
    requires start <= |s|
    ensures r.Some? ==> start <= r.value && r.value + |sep| <= |s|
    decreases |s| - start
  {
    if start + |sep| > |s| then None
    else if s[start..start + |sep|] == sep then Some(start)
    else IndexFrom(s, sep, start + 1)
  }

  /** `IndexFrom` finds an occurrence with none before it from `start` on,
      and gives `None` only when there is no occurrence from `start` on. */
  lemma {:induction false} IndexFromFirst(s: string, sep: string, start: nat)
    requires start <= |s|
    ensures var r := IndexFrom(s, sep, start);
            && (r.Some? ==> OccursAt(s, sep, r.value))
            && (r.Some? ==> forall j: nat :: start <= j < r.value ==> !OccursAt(s, sep, j))
            && (r.None? ==> forall j: nat :: start <= j ==> !OccursAt(s, sep, j))
    decreases |s| - start
  {
    if start + |sep| > |s| {
    } else if s[start..start + |sep|] == sep {
    } else {
      IndexFromFirst(s, sep, start + 1);
    }
  }

  /** Go's `strings.Index`: the first occurrence of `sep` in `s`. */
  function IndexOf(s: string, sep: string): (r: Option<nat>)
    ensures r.Some? ==> r.value + |sep| <= |s|
  {
    IndexFrom(s, sep, 0)
  }

  /** `IndexOf` gives the first occurrence, and `None` exactly when `sep`
      does not occur. */
  lemma IndexOfFirst(s: string, sep: string)
    ensures var r := IndexOf(s, sep);
            && (r.Some? ==> OccursAt(s, sep, r.value))
            && (r.Some? ==> forall j: nat :: j < r.value ==> !OccursAt(s, sep, j))
            && (r.None? <==> !Contains(s, sep))
  {
    IndexFromFirst(s, sep, 0);
  }

  /** The pieces joined back together with `sep` between neighbours. */
  function Join(parts: seq<string>, sep: string): string
    requires |parts| >= 1
  {
    if |parts| == 1 then parts[0] else parts[0] + sep + Join(parts[1..], sep)
  }

  /** A prefix that ends before the first occurrence of `sep` holds none. */
  lemma {:induction false} PrefixBeforeFirst(s: string, sep: string, i: nat)
    requires |sep| > 0 && i <= |s|
    requires forall j: nat :: j < i ==> !OccursAt(s, sep, j)
    ensures !Contains(s[..i], sep)
  {
    forall j: nat | OccursAt(s[..i], sep, j)
      ensures false
    {
      assert s[..i][j..j + |sep|] == s[j..j + |sep|];
      assert OccursAt(s, sep, j);
    }
  }

  /** Go's `strings.Split(s, sep)` for a non-empty `sep`: cut `s` at every
      occurrence of `sep`, scanning left to right; with no occurrence the
      result is `[s]`. */
  function Split(s: string, sep: string): (parts: seq<string>)
    requires |sep| > 0
    ensures |parts| >= 1
    decreases |s|
  {
    match IndexOf(s, sep)
    case None => [s]
    case Some(i) => [s[..i]] + Split(s[i + |sep|..], sep)
  }

  /** One step of `Split`: the prefix before the first occurrence, then the
      split of what follows that occurrence. */
  lemma SplitStep(s: string, sep: string, i: nat)
    requires |sep| > 0
    requires IndexOf(s, sep) == Some(i)
    ensures Split(s, sep) == [s[..i]] + Split(s[i + |sep|..], sep)
  {
  }

  /** There is one piece exactly when `sep` does not occur. */
  lemma SplitCount(s: string, sep: string)
    requires |sep| > 0
    ensures |Split(s, sep)| == 1 <==> !Contains(s, sep)
  {
    IndexOfFirst(s, sep);
  }

  /** Joining the pieces with `sep` gives back the string. */
  lemma {:induction false} SplitJoin(s: string, sep: string)
    requires |sep| > 0
    ensures Join(Split(s, sep), sep) == s
    decreases |s|
  {
    IndexOfFirst(s, sep);
    match IndexOf(s, sep)
    case None =>
    case Some(i) =>
      var rest := s[i + |sep|..];
      SplitJoin(rest, sep);
      SplitStep(s, sep, i);
      var parts := Split(s, sep);
      assert parts[1..] == Split(rest, sep);
      assert s == s[..i] + sep + rest;
  }

  /** No piece contains `sep`. */
  lemma {:induction false} SplitPiecesFree(s: string, sep: string)
    requires |sep| > 0
    ensures forall k :: 0 <= k < |Split(s, sep)| ==> !Contains(Split(s, sep)[k], sep)
    decreases |s|
  {
    IndexOfFirst(s, sep);
    match IndexOf(s, sep)
    case None =>
    case Some(i) =>
      var rest := s[i + |sep|..];
      SplitPiecesFree(rest, sep);
      PrefixBeforeFirst(s, sep, i);
      SplitStep(s, sep, i);
      var parts := Split(s, sep);
      assert forall k :: 0 < k < |parts| ==> parts[k] == Split(rest, sep)[k - 1];
  }

  /** The first piece of a split runs up to the first occurrence of `sep`,
      or to the end when there is none. */
  lemma SplitFirst(s: string, sep: string, e: nat)
    requires |sep| > 0 && e <= |s|
    requires e == |s| || OccursAt(s, sep, e)
    requires forall j: nat :: j < e ==> !OccursAt(s, sep, j)
    ensures Split(s, sep)[0] == s[..e]
  {
    IndexOfFirst(s, sep);
    match IndexOf(s, sep)
    case None =>
      assert !OccursAt(s, sep, e);
    case Some(i) =>
      assert i == e;
      SplitStep(s, sep, i);
  }

  /** An occurrence in a suffix is an occurrence in the whole string. */
  lemma OccursInSuffix(s: string, sep: string, k: nat, j: nat)
    requires k <= |s|
    ensures OccursAt(s[k..], sep, j) <==> OccursAt(s, sep, k + j)
  {
    if j + |sep| <= |s| - k {
      assert s[k..][j..j + |sep|] == s[k + j..k + j + |sep|];
    }
  }

  /** Splitting at a known first occurrence: its prefix, then the split of
      what follows it. */
  lemma SplitAtFirst(s: string, sep: string, i: nat)
    requires |sep| > 0
    requires OccursAt(s, sep, i)
    requires forall j: nat :: j < i ==> !OccursAt(s, sep, j)
    ensures Split(s, sep) == [s[..i]] + Split(s[i + |sep|..], sep)
  {
    IndexOfFirst(s, sep);
    var r := IndexOf(s, sep);
    assert r.Some?;
    assert r.value == i;
    SplitStep(s, sep, i);
  }

  /** The second piece of a split is the text between the first occurrence
      of `sep` (at `i`) and the next one (at `e`), or the end. */
  lemma SecondPiece(s: string, sep: string, i: nat, e: nat)
    requires |sep| > 0
    requires OccursAt(s, sep, i)
    requires forall j: nat :: j < i ==> !OccursAt(s, sep, j)
    requires i + |sep| <= e <= |s|
    requires e == |s| || OccursAt(s, sep, e)
    requires forall j: nat :: i + |sep| <= j < e ==> !OccursAt(s, sep, j)
    ensures |Split(s, sep)| >= 2 && Split(s, sep)[1] == s[i + |sep|..e]
  {
    var k := i + |sep|;
    var rest := s[k..];
    assert Split(rest, sep)[0] == s[k..e] by {
      assert forall j: nat :: j < e - k ==> !OccursAt(rest, sep, j) by {
        forall j: nat | j < e - k
          ensures !OccursAt(rest, sep, j)
        {
          OccursInSuffix(s, sep, k, j);
        }
      }
      assert e - k == |rest| || OccursAt(rest, sep, e - k) by {
        OccursInSuffix(s, sep, k, e - k);
      }
      SplitFirst(rest, sep, e - k);
      assert rest[..e - k] == s[k..e];
    }
    assert Split(s, sep) == [s[..i]] + Split(rest, sep) by {
      SplitAtFirst(s, sep, i);
    }
  }
}

=== FILE: users.dfy ===
/** The account handlers of `users.go`: registration and login. */
module Users {
  import opened Wrappers
  import opened Api
  import Uuids
  import Auth

  /** Go's `int` on a 64-bit platform; JSON numbers outside it fail to decode. */
  newtype int64 = x: int | -0x8000_0000_0000_0000 <= x < 0x8000_0000_0000_0000

  /** `reqBody`, the decoded JSON request of both handlers. */
  datatype Credentials = Credentials(email: string, password: string, expiresInSeconds: int64)

  /** `respBody`: the only shape either handler answers with. It has no
      password or hash field. */
  datatype UserView = UserView(id: Uuids.Uuid, createdAt: int, updatedAt: int, email: string, token: string)

  /** The reply built from a stored user and a token. */
  function View(user: User, token: string): UserView
  {
    UserView(user.id, user.createdAt, user.updatedAt, user.email, token)
  }

  /** Nothing of the stored hash reaches the client: the response is the
      same whatever hash, or none, the user row holds. */
  lemma ViewIgnoresHash(user: User, hash: Option<string>, token: string)
    ensures View(user.(hashedPassword := hash), token) == View(user, token)
  {
  }

  /** The default access-token lifetime, `1 * time.Hour`, in nanoseconds. */
  const Hour: int := 3600 * Auth.Second

  /** Largest lifetime, in seconds, a caller may ask for. */
  const MaxExpiresInSeconds: int := 3600

  /** Two's-complement wrap-around of a 64-bit multiplication result. */
  function Wrap64(x: int): int64 {
    ((x + 0x8000_0000_0000_0000) % 0x1_0000_0000_0000_0000 - 0x8000_0000_0000_0000) as int64
  }

  /** The lifetime exactly as written: `time.Duration(ExpiresIn) *
      time.Second` is a 64-bit product, which wraps for large negative
      requests. */
  function TokenLifetimeAsWritten(expiresIn: int64): (d: int64)
    ensures expiresIn == 0 || expiresIn as int > MaxExpiresInSeconds ==> d as int == Hour
  {
    if expiresIn != 0 && expiresIn as int <= MaxExpiresInSeconds then Wrap64(expiresIn as int * Auth.Second)
    else Hour as int64
  }

  /** A request of -9223372037 seconds passes the clamp and wraps to a
      lifetime of about 292 years. */
  lemma LifetimeAsWrittenOverflows()
    ensures TokenLifetimeAsWritten(-9223372037) as int == 9223372036709551616
    ensures TokenLifetimeAsWritten(-9223372037) as int > Hour
  {
  }

  /** The lifetime selection with the product taken without wrap-around:
      the requested number of seconds when it is non-zero and at most 3600
      (negative requests pass through), one hour otherwise. It never exceeds
      an hour. */
  function TokenLifetime(expiresIn: int64): (d: int)
    ensures d <= Hour
    ensures 0 < expiresIn as int <= MaxExpiresInSeconds ==> d == expiresIn as int * Auth.Second
    ensures expiresIn == 0 || expiresIn as int > MaxExpiresInSeconds ==> d == Hour
    ensures expiresIn < 0 ==> d == expiresIn as int * Auth.Second
  {
    if expiresIn != 0 && expiresIn as int <= MaxExpiresInSeconds then expiresIn as int * Auth.Second
    else Hour
  }

  /** The correction changes nothing where the 64-bit product does not
      overflow. */
  lemma LifetimeAgreesWithoutOverflow(expiresIn: int64)
    requires expiresIn as int >= -9223372036
    ensures TokenLifetimeAsWritten(expiresIn) as int == TokenLifetime(expiresIn)
  {
  }

  // ---------------------------------------------------------------------
  // POST /api/login

  /** `handlerLogin`: look the user up by email (401 when unknown), compare
      the password against the stored hash (401 on a mismatch or a
      comparison error), then issue a JWT for the user with the selected
      lifetime and answer with the user's public fields and the token. */
  function Login(cfg: Config, db: Db, request: Option<Credentials>, now: int): (r: Reply<UserView>)
    ensures request.None? ==> r.Fail? && r.status == StatusInternalServerError
    ensures request.Some? && UserByEmail(db.users, request.value.email).None?
            ==> r == Fail(StatusUnauthorized, "Unable to authenticate")
    ensures request.Some? && UserByEmail(db.users, request.value.email).Some?
            && cfg.bcrypt.compare(UserByEmail(db.users, request.value.email).value.hashedPassword.GetOr(""),
                                  request.value.password).Some?
            ==> r == Fail(StatusUnauthorized, "Login failed")
    ensures r.Respond? ==> && r.status == StatusOK
                           && request.Some?
                           && UserByEmail(db.users, request.value.email).Some?
                           && var user := UserByEmail(db.users, request.value.email).value;
                              && cfg.bcrypt.compare(user.hashedPassword.GetOr(""), request.value.password).None?
                              && r.body == View(user, r.body.token)
                              && Some(r.body.token) == cfg.jwt.sign(
                                   Auth.IssuedClaims(user.id, now, TokenLifetimeAsWritten(request.value.expiresInSeconds) as int),
                                   Auth.MySecretKey)
    ensures request.Some? && UserByEmail(db.users, request.value.email).Some?
            && cfg.bcrypt.compare(UserByEmail(db.users, request.value.email).value.hashedPassword.GetOr(""),
                                  request.value.password).None?
            ==> && (r.Respond? <==> cfg.jwt.sign(Auth.IssuedClaims(UserByEmail(db.users, request.value.email).value.id, now,
                                                                  TokenLifetimeAsWritten(request.value.expiresInSeconds) as int),
                                                Auth.MySecretKey).Some?)
                && (!r.Respond? ==> r == Abort(Exit))
    ensures r.Abort? ==> r.crash == Exit
  {
    match request
    case None => Fail(StatusInternalServerError, "Couldn't decode parameters")
    case Some(req) =>
      match UserByEmail(db.users, req.email)
      case None => Fail(StatusUnauthorized, "Unable to authenticate")
      case Some(user) =>
        var check := Auth.CheckPasswordHash(cfg.bcrypt, user.hashedPassword.GetOr(""), req.password);
        if !check.ok || check.err.Some? then Fail(StatusUnauthorized, "Login failed")
        else
          var lifetime := TokenLifetimeAsWritten(req.expiresInSeconds) as int;
          var issued := Auth.MakeJWT(cfg.jwt, user.id, cfg.signingSecret, lifetime, now);
          if issued.Crash? then Abort(issued.crash)
          else Respond(StatusOK, View(user, issued.value))
  }

  /** The token a successful login returns names the logged-in user: it
      validates to the response's id, the id of the user stored under the
      email, from the login until a second before it lapses. */
  lemma LoginTokenIdentifiesUser(cfg: Config, db: Db, request: Credentials, now: int, later: int, secret: string)
    requires Auth.Faithful(cfg.jwt)
    requires Login(cfg, db, Some(request), now).Respond?
    requires now <= later && later + Auth.Second <= now + TokenLifetimeAsWritten(request.expiresInSeconds) as int
    ensures var r := Login(cfg, db, Some(request), now);
            && r.body.id == UserByEmail(db.users, request.email).value.id
            && r.body.email == request.email
            && Auth.ValidateJWT(cfg.jwt, r.body.token, secret, later) == Ok(r.body.id)
  {
    var user := UserByEmail(db.users, request.email).value;
    Auth.ValidateIssuedToken(cfg.jwt, user.id, cfg.signingSecret, secret,
                             TokenLifetimeAsWritten(request.expiresInSeconds) as int, now, later);
  }

  /** For every request whose 64-bit product does not overflow, a login
      token stops validating an hour after it was issued. */
  lemma LoginTokenLapsesWithinHour(cfg: Config, db: Db, request: Credentials, now: int, later: int)
    requires Auth.Faithful(cfg.jwt)
    requires Login(cfg, db, Some(request), now).Respond?
    requires request.expiresInSeconds as int >= -9223372036
    requires now + Hour <= later
    ensures Auth.ValidateJWT(cfg.jwt, Login(cfg, db, Some(request), now).body.token, cfg.signingSecret, later).Err?
  {
    var user := UserByEmail(db.users, request.email).value;
    LifetimeAgreesWithoutOverflow(request.expiresInSeconds);
    Auth.IssuedTokenExpires(cfg.jwt, user.id, cfg.signingSecret,
                            TokenLifetimeAsWritten(request.expiresInSeconds) as int, now, later);
  }

  /** The overflowing request: asking for -9223372037 seconds yields a token
      that still validates an hour (indeed centuries) after it was issued. */
  lemma LoginTokenOutlivesHourAsWritten(cfg: Config, db: Db, request: Credentials, now: int)
    requires Auth.Faithful(cfg.jwt)
    requires Login(cfg, db, Some(request), now).Respond?
    requires request.expiresInSeconds == -9223372037
    ensures var r := Login(cfg, db, Some(request), now);
            Auth.ValidateJWT(cfg.jwt, r.body.token, cfg.signingSecret, now + Hour) == Ok(r.body.id)
  {
    LifetimeAsWrittenOverflows();
    LoginTokenIdentifiesUser(cfg, db, request, now, now + Hour, cfg.signingSecret);
  }

  /** An unknown email and a wrong password both give 401 without a token,
      but with different messages, so the two cases can be told apart. */
  lemma LoginFailuresDiffer(cfg: Config, db: Db, request: Credentials, now: int)
    requires UserByEmail(db.users, request.email).Some?
    requires cfg.bcrypt.compare(UserByEmail(db.users, request.email).value.hashedPassword.GetOr(""), request.password).Some?
    ensures var wrongPassword := Login(cfg, db, Some(request), now);
            var unknownEmail := Login(cfg, db.(users := []), Some(request), now);
            && wrongPassword.Fail? && unknownEmail.Fail?
            && wrongPassword.status == unknownEmail.status == StatusUnauthorized
            && wrongPassword.message != unknownEmail.message
  {
  }

  // ---------------------------------------------------------------------
  // POST /api/users

  /** `handlerUsers`: hash the password (bcrypt failure exits the process),
      insert the user with a non-null hash under the id the database
      generates (an insert failure exits the process too; here that is an
      id already taken) and answer 201 with the user's public fields and an
      empty token. */
  function Register(cfg: Config, db: Db, request: Option<Credentials>, newId: Uuids.Uuid, now: int): (r: (Reply<UserView>, Db))
    ensures request.None? ==> r.0.Fail? && r.0.status == StatusInternalServerError && r.1 == db
    ensures r.0.Abort? ==> r.0.crash == Exit && r.1 == db
    ensures request.Some? && !r.0.Respond? ==> r.0 == Abort(Exit) && r.1 == db
    ensures request.Some? ==> (r.0.Respond? <==> cfg.bcrypt.generate(request.value.password).Some?
                                                 && UserById(db.users, newId).None?)
    ensures r.0.Respond? ==> && request.Some?
                             && r.0.status == StatusCreated
                             && r.0.body == UserView(newId, now, now, request.value.email, "")
                             && r.1 == db.(users := db.users + [User(newId, now, now, request.value.email,
                                                                     cfg.bcrypt.generate(request.value.password))])
  {
    match request
    case None => (Fail(StatusInternalServerError, "Couldn't decode parameters"), db)
    case Some(req) =>
      match Auth.HashPassword(cfg.bcrypt, req.password)
      case Ok(hash) =>
        if UserById(db.users, newId).Some? then (Abort(Exit), db)
        else
          var user := User(newId, now, now, req.email, Some(hash));
          (Respond(StatusCreated, View(user, "")), db.(users := db.users + [user]))
      case _ => (Abort(Exit), db)
  }

  /** The registration reply does not depend on the hash bcrypt produced:
      two hashers that both succeed give the same reply. */
  lemma RegisterReplyIgnoresHash(cfg: Config, other: Auth.Bcrypt, db: Db, request: Credentials, newId: Uuids.Uuid, now: int)
    requires cfg.bcrypt.generate(request.password).Some? && other.generate(request.password).Some?
    ensures Register(cfg, db, Some(request), newId, now).0
            == Register(cfg.(bcrypt := other), db, Some(request), newId, now).0
  {
  }

  /** A freshly registered user can log in with the same email and password,
      and the token names the new id. */
  lemma RegisterThenLogin(cfg: Config, db: Db, request: Credentials, newId: Uuids.Uuid, now: int,
                          login: Credentials, loginAt: int, later: int)
    requires Auth.Consistent(cfg.bcrypt) && Auth.Faithful(cfg.jwt)
    requires Register(cfg, db, Some(request), newId, now).0.Respond?
    requires UserByEmail(db.users, request.email).None?
    requires login.email == request.email && login.password == request.password
    requires Auth.MakeJWT(cfg.jwt, newId, cfg.signingSecret, TokenLifetimeAsWritten(login.expiresInSeconds) as int, loginAt).Ok?
    requires loginAt <= later && later + Auth.Second <= loginAt + TokenLifetimeAsWritten(login.expiresInSeconds) as int
    ensures var db' := Register(cfg, db, Some(request), newId, now).1;
            var r := Login(cfg, db', Some(login), loginAt);
            && r.Respond? && r.body.id == newId
            && Auth.ValidateJWT(cfg.jwt, r.body.token, cfg.signingSecret, later) == Ok(newId)
  {
    var db' := Register(cfg, db, Some(request), newId, now).1;
    var user := User(newId, now, now, request.email, cfg.bcrypt.generate(request.password));
    assert db'.users == db.users + [user];
    EmailLookupAppend(db.users, user);
    LoginTokenIdentifiesUser(cfg, db', login, loginAt, later, cfg.signingSecret);
  }

  /** A lookup by an email no earlier row holds finds the appended row. */
  lemma {:induction false} EmailLookupAppend(users: seq<User>, user: User)
    requires UserByEmail(users, user.email).None?
    ensures UserByEmail(users + [user], user.email) == Some(user)
  {
    if users != [] {
      assert (users + [user])[1..] == users[1..] + [user];
      EmailLookupAppend(users[1..], user);
    }
  }
}

=== FILE: uuids.dfy ===
/** RFC 4122 identifiers as the `github.com/google/uuid` package prints and
    parses them: `String` gives the 36-character lower-case dashed form, and
    `Parse` (behind `uuid.MustParse`) accepts four layouts told apart by length. */
module Uuids {
  import opened Wrappers
  import opened Text
  import Hex

  type Uuid = b: seq<byte> | |b| == 16 witness [0, 0, 0, 0, 0, 0, 0, 0, 0, 0, 0, 0, 0, 0, 0, 0]

  /** Positions of the four dashes in the canonical layout. */
  predicate DashesAt(s: string)
    requires |s| >= 36
  {
    s[8] == '-' && s[13] == '-' && s[18] == '-' && s[23] == '-'
  }

  /** `uuid.UUID.String`: `xxxxxxxx-xxxx-xxxx-xxxx-xxxxxxxxxxxx`. */
  function Format(u: Uuid): (s: string)
    ensures |s| == 36 && DashesAt(s)
    ensures forall i :: 0 <= i < 36 && i != 8 && i != 13 && i != 18 && i != 23 ==> Hex.IsLowerHexDigit(s[i])
  {
    Hex.Encode(u[..4]) + "-" + Hex.Encode(u[4..6]) + "-" + Hex.Encode(u[6..8]) + "-"
      + Hex.Encode(u[8..10]) + "-" + Hex.Encode(u[10..])
  }

  /** ASCII case-insensitive equality (Go's `strings.EqualFold` agrees with it
      whenever one side is `urn:uuid:`). */
  predicate EqualFoldAscii(a: string, b: string) {
    |a| == |b| && forall i :: 0 <= i < |a| ==> LowerAscii(a[i]) == LowerAscii(b[i])
  }

  function LowerAscii(c: char): char {
    if 'A' <= c <= 'Z' then (c as int + 32) as char else c
  }

  /** A character UTF-8 encodes as a single byte. */
  predicate IsAscii(c: char) {
    c as int < 128
  }

  /** The dashed layout, read from the first 36 characters of `s`; anything
      after them is not looked at. */
  function ParseDashed(s: string): (r: Option<Uuid>)
    requires |s| >= 36
    ensures r.Some? ==> DashesAt(s)
    ensures r.Some? ==> forall i :: 0 <= i < 36 ==> IsAscii(s[i])
  {
    if !DashesAt(s) then None
    else match (Hex.Decode(s[0..8]), Hex.Decode(s[9..13]), Hex.Decode(s[14..18]),
                Hex.Decode(s[19..23]), Hex.Decode(s[24..36]))
      case (Some(a), Some(b), Some(c), Some(d), Some(e)) => Some(a + b + c + d + e)
      case _ => None
  }

  /** The dashed layout read at offset `k` accepts ASCII characters only. */
  lemma ParseDashedAsciiAt(s: string, k: nat)
    requires k + 36 <= |s|
    ensures ParseDashed(s[k..]).Some? ==> forall i :: k <= i < k + 36 ==> IsAscii(s[i])
  {
    if ParseDashed(s[k..]).Some? {
      forall i | k <= i < k + 36
        ensures IsAscii(s[i])
      {
        assert s[k..][i - k] == s[i];
      }
    }
  }

  /** Only ASCII characters fold to the letters of `urn:uuid:`. */
  lemma UrnPrefixAscii(s: string)
    requires |s| >= 9
    ensures EqualFoldAscii(s[..9], "urn:uuid:") ==> forall i :: 0 <= i < 9 ==> IsAscii(s[i])
  {
    if EqualFoldAscii(s[..9], "urn:uuid:") {
      forall i | 0 <= i < 9
        ensures IsAscii(s[i])
      {
        assert s[..9][i] == s[i];
        assert IsAscii("urn:uuid:"[i]);
      }
    }
  }

  /** `uuid.Parse`: 36 characters dashed; 45 with a `urn:uuid:` prefix of any
      case; 38, where the first character is dropped and the last ignored
      (the braces themselves are never checked, but Go measures the length
      in bytes, so for valid UTF-8 text both must be single-byte, that is
      ASCII, characters); or 32 bare hex digits. Of valid UTF-8 text, Go's
      parser therefore accepts ASCII text only.
      `None` is the error that makes `uuid.MustParse` panic. */
  function Parse(s: string): (r: Option<Uuid>)
    ensures r.Some? ==> |s| in {32, 36, 38, 45}
    ensures r.Some? ==> forall i :: 0 <= i < |s| ==> IsAscii(s[i])
  {
    if |s| == 36 then ParseDashed(s)
    else if |s| == 45 then
      UrnPrefixAscii(s);
      ParseDashedAsciiAt(s, 9);
      if EqualFoldAscii(s[..9], "urn:uuid:") then ParseDashed(s[9..]) else None
    else if |s| == 38 then
      ParseDashedAsciiAt(s, 1);
      if IsAscii(s[0]) && IsAscii(s[37]) then ParseDashed(s[1..]) else None
    else if |s| == 32 then
      match Hex.Decode(s)
      case Some(b) => Some(b)
      case None => None
    else None
  }

  /** Parsing the printed form gives the identifier back, so `MustParse`
      never panics on it. */
  lemma ParseFormat(u: Uuid)
    ensures Parse(Format(u)) == Some(u)
  {
    ParseDashedFormat(u);
  }

  /** Where the five hex groups sit in the printed form. */
  lemma FormatGroups(u: Uuid)
    ensures var s := Format(u);
            && s[0..8] == Hex.Encode(u[..4]) && s[9..13] == Hex.Encode(u[4..6])
            && s[14..18] == Hex.Encode(u[6..8]) && s[19..23] == Hex.Encode(u[8..10])
            && s[24..36] == Hex.Encode(u[10..])
  {
    var s := Format(u);
    var p0, p1, p2, p3, p4 := Hex.Encode(u[..4]), Hex.Encode(u[4..6]), Hex.Encode(u[6..8]),
                              Hex.Encode(u[8..10]), Hex.Encode(u[10..]);
    assert s == p0 + "-" + p1 + "-" + p2 + "-" + p3 + "-" + p4;
    assert s[0..8] == p0;
    assert s[9..13] == p1;
    assert s[14..18] == p2;
    assert s[19..23] == p3;
    assert s[24..36] == p4;
  }

  /** The dashed reading of the printed form gives the identifier back. */
  lemma ParseDashedFormat(u: Uuid)
    ensures ParseDashed(Format(u)) == Some(u)
  {
    FormatGroups(u);
    Hex.DecodeEncode(u[..4]);
    Hex.DecodeEncode(u[4..6]);
    Hex.DecodeEncode(u[6..8]);
    Hex.DecodeEncode(u[8..10]);
    Hex.DecodeEncode(u[10..]);
    assert u[..4] + u[4..6] + u[6..8] + u[8..10] + u[10..] == u;
  }


  /** Distinct identifiers print differently. */
  lemma FormatInjective(u: Uuid, v: Uuid)
    requires Format(u) == Format(v)
    ensures u == v
  {
    ParseFormat(u);
    ParseFormat(v);
  }

  /** A 38-character id whose unchecked first character is not ASCII is 39
      bytes long in UTF-8, so Go rejects it, and so does the model. */
  lemma ParseRejectsNonAsciiBrace(u: Uuid)
    ensures Parse(['\U{e9}'] + Format(u) + ['}']).None?
  {
    var s := ['\U{e9}'] + Format(u) + ['}'];
    assert s[0] == '\U{e9}';
  }
}

=== FILE: wrappers.dfy ===
/** Failure-carrying datatypes shared by the whole model.

    A Go function in this service ends in one of three ways: it returns a
    value, it returns a non-nil `error`, or it never returns at all because
    it panicked (an index out of range, `uuid.MustParse` on bad input) or
    called `log.Fatal`, which exits the process. `Outcome` keeps the three
    apart so that contracts can say which one happens.
 */
module Wrappers {

  datatype Option<+T> = None | Some(value: T) {

    /** The value, or `default` when there is none (Go's zero-value idiom). */
    function GetOr(default: T): T {
      match this
      case Some(v) => v
      case None => default
    }
  }

  /** How a Go call stops without returning. */
  datatype Crash =
    | Panic   // a runtime panic; net/http recovers it and drops the connection
    | Exit    // log.Fatal / log.Fatalf: the whole process exits

  datatype Outcome<+T> =
    | Ok(value: T)
    | Err(error: string)
    | Crash(crash: Crash)
}
